=== FILE: README.md ===
# ReadBufferFromWebServer, modelled in Dafny

A model of ClickHouse's `ReadBufferFromWebServer`. This is the read buffer that
streams a remote file over HTTP range requests. It creates its HTTP session
lazily on the first read, retrying a bounded number of times. Absolute seeks are
allowed, any number of them, until that session exists; after that every seek
is refused. It hands each chunk the session delivers to the consumer as the
readable window. In sequential mode the window is the session's own buffer, and
the consumer must read it to the end before asking for more. In external-buffer
(prefetch) mode every call that finds a session hands it the buffer the caller
supplies with that call. The call that creates the session does not: the reader
calls `set` on the session only when one already exists. That session is built
with the external-buffer flag, and what it fills before it is given a buffer is
up to the transport. The model assumes it fills a buffer of the configured size
(`buf_size`).

The reader is an immutable record `Reader(mode, impl, offset, window, cursor)`:

- `impl` is the optional session.
- `offset` is the resource index up to which bytes have been fetched.
- `window[cursor..]` is what the consumer has not read yet.

The operations are pure functions over this record. `Seek` returns a
`Result`. `NextImpl` returns the new state together with `Fetched(true)`,
`Fetched(false)` or `Failed(error)`. The state is returned on failure too,
because a failed call can leave a session installed. `GetPosition` is
`offset - available()`.

The HTTP transport is abstract. The remote file is a `seq<byte>`. A session
answers one open-ended range request: each `Next` delivers the next chunk from
the requested start, as large as its buffer allows. The session's start is what
a server reads back out of the `Range` header the reader writes. That is why the
round trip between `Decimal.Format` and `Decimal.Parse` is what makes "the
first byte fetched is the byte at the logical offset" hold. Each call of
`initialize()` succeeds, raises a `Poco::Exception` of any kind (`Fails`: a
network failure, a malformed URL, or one of the server's own exceptions, which
derive from it) or raises some other exception (`Escapes`) according to an oracle
`attempts: nat -> Attempt`, indexed by attempt number.

Modules, one file each:

- `Errors` (errors.dfy): `Option`, `Result` and the error codes.
- `Decimal` (decimal.dfy): rendering a number as `fmt::format("{}", n)` does, and the inverse parser.
- `Request` (request.dfy): the timeout floors, the keep-alive default, the RFC 7233 open-ended range header, and the request record.
- `HttpSession` (session.dfy): the abstract transport.
- `Retry` (retry.dfy): the session-creation loop.
- `WebServerReader` (reader.dfy): the reader's state and operations.
- `ReaderProperties` (properties.dfy): properties that span several calls.

The retry loop is modelled as written, with no exit on success. It makes
exactly `max(http_max_tries, 10)` attempts unless an exception other than
`Poco::Exception` is raised: the loop does not catch that one, so it ends the
loop at the attempt that raised it. Of the `Poco::Exception`s only that of the
last attempt escapes, and it escapes even when an earlier attempt already
installed a session. Either exception leaves such a session in place. The session then stays: the reader refuses to seek, and the
next call reuses the session without retrying. "The read succeeds as soon as
one attempt succeeds" is therefore not what the code does. The model follows
the code (`Retry.LateFailureAfterSuccess`,
`ReaderProperties.SessionSurvivesFailedCreation`).

## Model

| member | source | states |
|---|---|---|
| WebServerReader.Initial | src/IO/ReadBufferFromWebServer.cpp:25-35 | a newly built reader has the requested mode, no session, offset 0 and an empty window, and satisfies the reader invariant for every resource |
| WebServerReader.GetPosition | src/IO/ReadBufferFromWebServer.cpp:144-147 | the position is the offset less the unread bytes of the window, never past the offset, and equal to it exactly when the window has been read to its end |
| WebServerReader.Seek | src/IO/ReadBufferFromWebServer.cpp:127-141 | seek succeeds exactly when there is no session, whence is SEEK_SET and the target is non-negative; it then sets the offset to the target, returns it, changes nothing else and keeps the reader invariant; otherwise the error is CANNOT_SEEK_THROUGH_FILE when a session exists (whatever the target), then CANNOT_SEEK_THROUGH_FILE for another whence, then SEEK_POSITION_OUT_OF_BOUND for a negative target |
| WebServerReader.Initialize | src/IO/ReadBufferFromWebServer.cpp:38-65 | the session opened by initialize() requests the reader's URL, starts its range at exactly the current offset, carries the Range header for that offset, uses the configured buffer size and the floored timeout bundle, and has delivered nothing yet |
| WebServerReader.HandoffReady | src/IO/ReadBufferFromWebServer.cpp:72-94 | without a session the caller is always ready; in external mode an existing session may be given the caller's buffer exactly when that buffer is non-empty; in sequential mode an existing session may be asked for more exactly when, once the consumer's position is passed to it, it has no pending data |
| WebServerReader.PrepareSession | src/IO/ReadBufferFromWebServer.cpp:68-113 | an existing session is reused with no attempts: it is pointed at the caller's buffer in external mode and given the consumer's cursor in sequential mode; without a session the retry loop runs; the session it yields ends at the reader's offset, holds the current window, keeps the request and start of the reader's session (or is the one initialize() opens for the offset) and fills the buffer of this call |
| WebServerReader.NextImpl | src/IO/ReadBufferFromWebServer.cpp:68-124 | bookkeeping is preserved; an existing session is kept with its request and start, and a new one is the one initialize() opens for the offset; the session fills the caller's buffer in external mode once it exists, its own buffer otherwise; attempts are made only when no session exists, and then max(http_max_tries, 10) of them unless an uncaught exception ends the loop earlier; the call fails exactly when the last attempt run does not succeed, with that attempt's error and with offset and window unchanged, leaving a session exactly when some attempt run succeeded; otherwise a chunk is delivered exactly when the offset is before the end of the resource and the buffer is non-empty; a chunk fills the buffer or reaches the end, becomes the window with the cursor at 0, is the resource from the old offset, and advances the offset by its size; at end of data offset and window stay as they were |
| WebServerReader.PositionIsNextUnreadByte | src/IO/ReadBufferFromWebServer.cpp:144-147 | getPosition() lies between 0 and the offset, adding the unread count to it gives the offset, and the unread part of the window is the resource from getPosition() on |
| Request.FloorHttpTimeout | src/IO/ReadBufferFromWebServer.cpp:53-55 | a connection or receive timeout is cut to whole seconds and is the larger of its whole seconds and 20 seconds |
| Request.FloorHttpTimeoutIdempotent | src/IO/ReadBufferFromWebServer.cpp:53-55 | flooring an already floored timeout changes nothing |
| Request.FloorHttpTimeoutKeeps | src/IO/ReadBufferFromWebServer.cpp:53-55 | a timeout passes the floor unchanged exactly when it is whole seconds and at least 20 seconds |
| Request.BuildTimeouts | src/IO/ReadBufferFromWebServer.cpp:47-57 | the connection and receive timeouts are floored, the send and TCP keep-alive timeouts are passed through, and the HTTP keep-alive is the configured keep_alive_timeout in whole seconds, or 20 when it is not configured |
| Request.RangeHeaderValue | src/IO/ReadBufferFromWebServer.cpp:43 | the Range header value is bytes=, then the offset's decimal digits without a leading zero, then a closing dash |
| Request.RangeHeaderRoundTrip | src/IO/ReadBufferFromWebServer.cpp:43 | the header value bytes=<offset>- is read as an open-ended byte range (RFC 7233 section 2.1) that starts at exactly that offset |
| Request.RangeHeaderCanonical | src/IO/ReadBufferFromWebServer.cpp:43 | every open-ended range without leading zeros is the header the reader writes for its start, so the header and the offset determine each other |
| Request.BuildRequest | src/IO/ReadBufferFromWebServer.cpp:40-64 | the request is a GET for the reader's URL whose only header is the Range header asking for the resource from the offset; it allows no redirects and carries the built timeouts, the buffer size and the external-buffer flag |
| Decimal.Format | src/IO/ReadBufferFromWebServer.cpp:43 | an offset is written as a non-empty string of decimal digits with no leading zero, the single digit 0 being the text of 0 only |
| Decimal.ParseFormat | src/IO/ReadBufferFromWebServer.cpp:43 | the decimal text written for an offset parses back to that offset |
| Decimal.FormatParse | src/IO/ReadBufferFromWebServer.cpp:43 | every digit string without a leading zero is the decimal text of its value |
| Decimal.FormatInjective | src/IO/ReadBufferFromWebServer.cpp:43 | distinct offsets get distinct decimal texts |
| Retry.NumTries | src/IO/ReadBufferFromWebServer.cpp:99 | the number of attempts is the larger of http_max_tries and 10 |
| Retry.RetryFrom | src/IO/ReadBufferFromWebServer.cpp:100-113 | from iteration i the loop makes every remaining attempt up to and including the first that raises an exception other than Poco::Exception; such an exception escapes with its reason; otherwise an error escapes exactly when the last attempt fails, with that attempt's reason; the session is the built one exactly when some attempt run succeeds, and is otherwise left as it was |
| Retry.FirstEscape | src/IO/ReadBufferFromWebServer.cpp:102-106 | the first attempt of a range that raises an exception other than Poco::Exception, which the catch clause does not handle; the range end when there is none |
| Retry.AttemptsRun | src/IO/ReadBufferFromWebServer.cpp:99-113 | the loop runs at least one and at most max(http_max_tries, 10) attempts; it stops early only at an uncaught exception, and none of the attempts before its last raised one |
| Retry.InitWithRetry | src/IO/ReadBufferFromWebServer.cpp:96-113 | starting without a session the loop runs the attempts above; it fails exactly when the last attempt run does not succeed, with that attempt's error; a session exists afterwards exactly when some attempt run succeeded; no error implies a session |
| Retry.RunRetryLoop | src/IO/ReadBufferFromWebServer.cpp:99-113 | the counted loop that stops at an uncaught exception and rethrows a Poco::Exception on its last iteration computes exactly the retry result above |
| Retry.LateFailureAfterSuccess | src/IO/ReadBufferFromWebServer.cpp:100-113 | a success on the first attempt does not end the loop: a failure on the last attempt is reported while the session from the first remains, and all attempts are made exactly when none raises an uncaught exception |
| Retry.EarlierFailuresSwallowed | src/IO/ReadBufferFromWebServer.cpp:106-111 | when no attempt raises an uncaught exception and the last attempt succeeds, Poco::Exceptions of earlier attempts are never reported |
| Retry.UncaughtExceptionStopsLoop | src/IO/ReadBufferFromWebServer.cpp:102-106 | an exception other than Poco::Exception escapes from the attempt that raised it, no later attempt is made, and a session built by an earlier attempt stays |
| ReaderProperties.SeekThenFirstFetch | src/IO/ReadBufferFromWebServer.cpp:43 | after seek(o) within the resource, the first fetch sends Range bytes=o-, installs the resource from o as the window, and getPosition() is o |
| ReaderProperties.SeekHundredExample | src/IO/ReadBufferFromWebServer.cpp:144-147 | with 64-byte chunks, seek(100) then a fetch gives position 100; after reading the 64 bytes the position is 164 and the next fetch delivers bytes 164 to 227 |
| ReaderProperties.NoSeekAfterFetch | src/IO/ReadBufferFromWebServer.cpp:129-130 | after any call that fetched or reached the end, seek fails with CANNOT_SEEK_THROUGH_FILE for every target and whence |
| ReaderProperties.SessionSurvivesFailedCreation | src/IO/ReadBufferFromWebServer.cpp:100-113 | if the first attempt succeeds and the last attempt run does not, the call fails, yet a session is installed: seek is refused and the next call makes no attempts |
| ReaderProperties.AllAttemptsFail | src/IO/ReadBufferFromWebServer.cpp:104-109 | if every attempt fails, the call fails with the last attempt's error, the reader is unchanged, and seeking is still allowed |
| ReaderProperties.EndOfDataIsSticky | src/IO/ReadBufferFromWebServer.cpp:116-123 | once end of data is reported with a session in place, or at or past the end of the resource, the next call reports end of data too, with no attempts and the same offset and window |
| ReaderProperties.ExternalPrefetchTwice | src/IO/ReadBufferFromWebServer.cpp:72-84 | in external mode, once a session exists, two calls with buffers of sizes a and b fill them with consecutive stretches of the resource, with nothing read in between |
| ReaderProperties.DrainThenFetch | src/IO/ReadBufferFromWebServer.cpp:85-94 | in sequential mode, once the window is read to its end, a delivered chunk starts at the old offset, which is where the position then stands; otherwise the offset does not move |
| ReaderProperties.ReadSequentially | src/IO/ReadBufferFromWebServer.cpp:85-120 | a sequential consumer that reads every window and fetches again reads the resource contiguously, without gaps or repeats, from its starting position up to the final offset |

## Left out

- The HTTP transport (`ReadWriteBufferFromHTTP`, `Poco::URI`): its code is not part of this model. It is replaced by `HttpSession`. A session always fills its buffer unless the resource ends first, so short reads are not modelled. The cursor it reports after a chunk (`impl->offset()`) is always 0.
- How a server answers a range that starts past the end of the resource: the session reports end of data at once, instead of an HTTP error.
- Exceptions from `initialize()`: they are an oracle of attempt outcomes, not a model of their causes. Only the class matters: `Poco::Exception` or anything else.
- WebServerReader.NextImpl: an exception thrown by `impl->next()` itself (line 116) is not modelled. The transport is abstract and its `next()` always answers. Such an exception would leave the offset and window unchanged, with the session already re-targeted. The cursor the transport reports after a chunk (`impl->offset()`, line 119) is taken to be 0. So a delivered window is always unread from its start, and getPosition() right after a fetch is the offset before it. A non-zero cursor from the transport is not modelled.
- HttpSession.Open: the request's external-buffer flag has no effect in the model. The transport's code is not part of this model, so what a session built with that flag fills before it is given the caller's buffer is unknown. The model assumes it fills a buffer of `buf_size`. So on the first external-mode call the window holds at most `buf_size` bytes, whatever the caller's buffer size (this is used by `ReaderProperties.SeekThenFirstFetch` in external mode).
- Context and configuration lookups (`getSettingsRef`, `getConfigRef`, `getRemoteHostFilter`), credentials and read settings: these are plain inputs. The 32-bit range of `getUInt` and its error on a malformed value are not modelled.
- Redirects: the reader passes a redirect limit of 0, and following redirects is the transport's business, so it is not modelled.
- The send and TCP keep-alive timeouts are carried through unchanged. Nothing else is done with them.
- Logging (`LOG_DEBUG`, `tryLogCurrentException`): it is a side effect only.
- Memory and pointers: the caller's buffer in external mode is its size, passed on each call. The `working_buffer.begin() != nullptr` assertion is not modelled.
- The two debug assertions (no pending data in sequential mode, a non-empty caller buffer in external mode) are preconditions (`HandoffReady`). What a release build does when they are violated is not modelled.
- What `ReadBuffer::next()` does around `nextImpl()` (emptying the window after end of data, counting bytes) is not part of this file, so it is not modelled.
- 64-bit overflow of `off_t` and `size_t`: offsets and counts are unbounded naturals.

=== FILE: decimal.dfy ===
/** Decimal rendering of a non-negative integer, as `fmt::format("{}", n)`
    produces it, together with the parser a server applies to such digits.
    The two are proved inverse to each other on canonical digit strings.
 */
module Decimal {

  predicate IsDigit(c: char) {
    '0' <= c <= '9'
  }

  /** A non-empty string of ASCII digits (`1*DIGIT`). */
  predicate IsDigits(s: string) {
    |s| > 0 && forall i :: 0 <= i < |s| ==> IsDigit(s[i])
  }

  /** Digits without a redundant leading zero: the form a formatter emits. */
  predicate IsCanonical(s: string) {
    IsDigits(s) && (|s| > 1 ==> s[0] != '0')
  }

  function DigitChar(d: nat): (c: char)
    requires d < 10
    ensures IsDigit(c)
  {
    (('0' as int) + d) as char
  }

  function DigitValue(c: char): (d: nat)
    requires IsDigit(c)
    ensures d < 10
  {
    (c as int) - ('0' as int)
  }

  /** The decimal representation of `n`, most significant digit first. */
  function Format(n: nat): (s: string)
    ensures IsCanonical(s)
    ensures s[0] == '0' ==> n == 0
  {
    if n < 10 then [DigitChar(n)] else Format(n / 10) + [DigitChar(n % 10)]
  }

  /** The value of a digit string; leading zeros are allowed. */
  function Parse(s: string): nat
    requires IsDigits(s)
  {
    if |s| == 1 then DigitValue(s[0])
    else Parse(s[..|s| - 1]) * 10 + DigitValue(s[|s| - 1])
  }

  /** Parsing undoes formatting. */
  lemma {:induction false} ParseFormat(n: nat)
    ensures Parse(Format(n)) == n
  {
    if n >= 10 {
      var s := Format(n);
      assert s[..|s| - 1] == Format(n / 10);
      ParseFormat(n / 10);
    }
  }

  /** A digit string that does not start with '0' has a positive value. */
  lemma {:induction false} ParsePositive(s: string)
    requires IsDigits(s) && s[0] != '0'
    ensures Parse(s) > 0
  {
    if |s| > 1 {
      ParsePositive(s[..|s| - 1]);
    }
  }

  /** Formatting undoes parsing on canonical strings, so `Format` is a
      bijection between naturals and canonical digit strings. */
  lemma {:induction false} FormatParse(s: string)
    requires IsCanonical(s)
    ensures Format(Parse(s)) == s
  {
    if |s| == 1 {
      assert [DigitChar(DigitValue(s[0]))] == s;
    } else {
      var init := s[..|s| - 1];
      assert IsCanonical(init);
      ParsePositive(init);
      FormatParse(init);
      assert s == init + [s[|s| - 1]];
    }
  }

  /** Distinct numbers are rendered differently. */
  lemma FormatInjective(a: nat, b: nat)
    requires Format(a) == Format(b)
    ensures a == b
  {
    ParseFormat(a);
    ParseFormat(b);
  }
}

=== FILE: errors.dfy ===
/** Failure-carrying datatypes shared by the reader model.

    The error codes are the ones the web-server reader raises: the two seek
    errors, a `Poco::Exception` of any kind (a network failure, a malformed
    URL, or one of the server's own exceptions, which derive from it) that
    escapes the session-creation retry loop on its last attempt, and any
    other exception, which that loop does not catch at all.
 */
module Errors {

  /** An optional value: the reader's nullable session pointer, a configuration
      key that may be missing, a header that may not parse. */
  datatype Option<+T> = None | Some(value: T) {

    /** The wrapped value, or `default` when absent. */
    function GetOr(default: T): T {
      match this
      case Some(v) => v
      case None => default
    }
  }

  /** The failure categories a caller of the reader can observe. */
  datatype ErrorCode =
    | CannotSeekThroughFile
    | SeekPositionOutOfBound
    | PocoError(reason: string)
    | UnexpectedError(reason: string)

  /** Either a value or the error that was raised instead. */
  datatype Result<+T> = Ok(value: T) | Err(code: ErrorCode)
}

=== FILE: properties.dfy ===
/** Properties of the reader that span several operations: seek followed by
    the first fetch, the lifetime of the session, end of data, and the byte
    stream a sequential consumer sees.
 */
module ReaderProperties {
  import opened Errors
  import Decimal
  import Request
  import Retry
  import HttpSession
  import opened WebServerReader

  /** After `seek(o)` the first fetch opens a session whose `Range` header is
      `bytes=o-`, and the window it installs is the resource from `o` on;
      `getPosition()` still reports `o` because nothing has been consumed. */
  lemma SeekThenFirstFetch(mode: Mode, o: nat, p: Params, resource: seq<byte>, attempts: nat -> Retry.Attempt, externalSize: nat)
    requires o < |resource| && p.bufferSize > 0
    requires Retry.LastRun(attempts, p.httpMaxTries).Succeeds?
    ensures Seek(Initial(mode), o, SEEK_SET) == Ok((Initial(mode).(offset := o), o))
    ensures var st := NextImpl(Initial(mode).(offset := o), p, resource, attempts, externalSize);
            && st.outcome == Fetched(true)
            && st.reader.impl.Some?
            && Request.LookupHeader(st.reader.impl.value.request.headers, Request.RANGE_HEADER)
               == Some("bytes=" + Decimal.Format(o) + "-")
            && st.reader.window == resource[o..st.reader.offset]
            && |st.reader.window| == HttpSession.Min(p.bufferSize, |resource| - o)
            && GetPosition(st.reader) == o
  {
  }

  /** The worked example: with 64-byte chunks, `seek(100)` and one fetch
      leave the position at 100; once the 64 bytes are read the position is
      164 and the next fetch delivers the resource from 164 on. */
  lemma SeekHundredExample(p: Params, resource: seq<byte>, attempts: nat -> Retry.Attempt)
    requires |resource| == 300 && p.bufferSize == 64
    requires Retry.LastRun(attempts, p.httpMaxTries).Succeeds?
    ensures var r1 := Initial(Sequential).(offset := 100);
            var st := NextImpl(r1, p, resource, attempts, 0);
            && Seek(Initial(Sequential), 100, SEEK_SET) == Ok((r1, 100))
            && st.outcome == Fetched(true)
            && |st.reader.window| == 64 && st.reader.cursor == 0
            && GetPosition(st.reader) == 100
            && GetPosition(Consume(st.reader, 64)) == 164
            && NextImpl(Consume(st.reader, 64), p, resource, attempts, 0).reader.window == resource[164..228]
  {
  }

  /** Once a call has produced a session, seeking is refused for every
      target and whence, negative offsets included. */
  lemma NoSeekAfterFetch(r: Reader, p: Params, resource: seq<byte>, attempts: nat -> Retry.Attempt, externalSize: nat, target: int, whence: int)
    requires Valid(r, resource) && HandoffReady(r, externalSize)
    requires NextImpl(r, p, resource, attempts, externalSize).outcome.Fetched?
    ensures Seek(NextImpl(r, p, resource, attempts, externalSize).reader, target, whence) == Err(CannotSeekThroughFile)
  {
  }

  /** Because the retry loop does not stop at the first success, a call can
      fail (a `Poco::Exception` on the last attempt, or an uncaught exception
      on a later one) while a session built by an earlier attempt stays
      installed: the reader then refuses to seek and the next call reuses
      that session without retrying. */
  lemma SessionSurvivesFailedCreation(r: Reader, p: Params, resource: seq<byte>, attempts: nat -> Retry.Attempt, externalSize: nat, target: int, whence: int)
    requires Valid(r, resource) && r.impl.None? && externalSize > 0
    requires attempts(0).Succeeds?
    requires !Retry.LastRun(attempts, p.httpMaxTries).Succeeds?
    ensures var st := NextImpl(r, p, resource, attempts, externalSize);
            && st.outcome.Failed?
            && st.reader.impl.Some?
            && Seek(st.reader, target, whence) == Err(CannotSeekThroughFile)
            && HandoffReady(st.reader, externalSize)
            && NextImpl(st.reader, p, resource, attempts, externalSize).tries == 0
  {
  }

  /** When every attempt fails, the call fails with the last attempt's error,
      no session is installed and seeking is still allowed. */
  lemma AllAttemptsFail(r: Reader, p: Params, resource: seq<byte>, attempts: nat -> Retry.Attempt, externalSize: nat)
    requires Valid(r, resource) && r.impl.None?
    requires forall j :: 0 <= j < Retry.NumTries(p.httpMaxTries) ==> attempts(j).Fails?
    ensures var st := NextImpl(r, p, resource, attempts, externalSize);
            && st.outcome == Failed(PocoError(attempts(Retry.NumTries(p.httpMaxTries) - 1).reason))
            && st.reader == r
            && Seek(st.reader, r.offset, SEEK_SET).Ok?
  {
  }

  /** End of data is terminal: once a call with a session in place, or at or
      past the end of the resource, reports no more data, every later call
      does too, without moving the offset or the window. */
  lemma EndOfDataIsSticky(r: Reader, p: Params, resource: seq<byte>, attempts: nat -> Retry.Attempt,
                          later: nat -> Retry.Attempt, externalSize: nat)
    requires Valid(r, resource) && HandoffReady(r, externalSize)
    requires r.mode == External ==> externalSize > 0
    requires r.impl.Some? || r.offset >= |resource|
    requires NextImpl(r, p, resource, attempts, externalSize).outcome == Fetched(false)
    ensures var st := NextImpl(r, p, resource, attempts, externalSize);
            && HandoffReady(st.reader, externalSize)
            && var st2 := NextImpl(st.reader, p, resource, later, externalSize);
               && st2.outcome == Fetched(false) && st2.tries == 0
               && st2.reader.offset == r.offset && st2.reader.window == r.window && st2.reader.cursor == r.cursor
  {
  }

  /** In external mode the caller may prefetch into a fresh buffer on each
      call without reading the previous one: consecutive calls fill buffers
      of the sizes supplied with consecutive stretches of the resource. */
  lemma ExternalPrefetchTwice(r: Reader, p: Params, resource: seq<byte>, attempts: nat -> Retry.Attempt, a: nat, b: nat)
    requires Valid(r, resource) && r.mode == External && r.impl.Some?
    requires a > 0 && b > 0 && r.offset + a + b <= |resource|
    ensures var st1 := NextImpl(r, p, resource, attempts, a);
            && st1.outcome == Fetched(true)
            && st1.reader.window == resource[r.offset..r.offset + a]
            && HandoffReady(st1.reader, b)
            && var st2 := NextImpl(st1.reader, p, resource, attempts, b);
               && st2.outcome == Fetched(true)
               && st2.reader.window == resource[r.offset + a..r.offset + a + b]
  {
  }

  /** One round of a sequential consumer: read the window to its end, then
      ask for the next chunk. A delivered chunk starts exactly at the old
      offset, which is also where the position then stands. */
  function DrainThenFetch(r: Reader, p: Params, resource: seq<byte>, attempts: nat -> Retry.Attempt): (st: Step)
    requires Valid(r, resource) && r.mode == Sequential
    ensures Valid(st.reader, resource) && st.reader.mode == Sequential
    ensures st.outcome == Fetched(true) ==> GetPosition(st.reader) == r.offset < st.reader.offset
    ensures st.outcome != Fetched(true) ==> st.reader.offset == r.offset
  {
    NextImpl(Consume(r, Available(r)), p, resource, attempts, 0)
  }

  /** A sequential consumer: read the rest of the window, then fetch, up to
      `steps` times or until a call does not deliver a chunk. Returns the
      final reader and every byte the consumer read, in order. What it reads
      is the resource itself, contiguous and without repeats: from the
      position it started at up to the final fetch offset. */
  function ReadSequentially(r: Reader, p: Params, resource: seq<byte>, attempts: nat -> Retry.Attempt, steps: nat)
    : (res: (Reader, seq<byte>))
    requires Valid(r, resource) && r.mode == Sequential
    ensures Valid(res.0, resource) && res.0.mode == Sequential
    ensures 0 <= GetPosition(r) && |res.1| == res.0.offset - GetPosition(r)
    ensures HttpSession.Extends(resource, GetPosition(r), res.1)
    decreases steps
  {
    var unread := r.window[r.cursor..];
    PositionIsNextUnreadByte(r, resource);
    if steps == 0 then (Consume(r, Available(r)), unread)
    else
      var st := DrainThenFetch(r, p, resource, attempts);
      if st.outcome == Fetched(true) then
        var rest := ReadSequentially(st.reader, p, resource, attempts, steps - 1);
        HttpSession.ExtendsConcat(resource, GetPosition(r), GetPosition(st.reader), unread, rest.1);
        (rest.0, unread + rest.1)
      else (st.reader, unread)
  }
}

=== FILE: reader.dfy ===
/** The web-server read buffer: a lazily created session, a logical offset
    and the readable window handed to the consumer, driven by three
    operations — `Seek`, `NextImpl` and `GetPosition`.
 */
module WebServerReader {
  import opened Errors
  import Request
  import Retry
  import HttpSession

  type byte = HttpSession.byte

  /** `SEEK_SET` from `<stdio.h>`. */
  const SEEK_SET: int := 0

  /** Fixed at construction. In sequential mode the session's own buffer is
      handed out and must be consumed before the next call. In external
      (prefetch) mode every call that finds a session hands it the buffer the
      caller supplies. The call that creates the session does not; the
      session is then assumed to fill a buffer of the configured size. */
  datatype Mode = Sequential | External

  /** The reader's state. `offset` is the resource index up to which bytes
      have been fetched; `window[cursor..]` is what the consumer has not read. */
  datatype Reader = Reader(
    mode: Mode,
    impl: Option<HttpSession.Session>,
    offset: nat,
    window: seq<byte>,
    cursor: nat)

  /** Construction-time inputs of the reader. */
  datatype Params = Params(
    url: string,
    bufferSize: nat,
    httpMaxTries: nat,
    settings: Request.Settings,
    keepAliveConfig: Option<nat>)

  /** A freshly constructed reader: no session, offset 0, empty window. */
  function Initial(mode: Mode): (r: Reader)
    ensures r.mode == mode && r.impl.None? && r.offset == 0 && r.window == [] && r.cursor == 0
    ensures forall resource :: Valid(r, resource)
  {
    Reader(mode, None, 0, [], 0)
  }

  /** Bookkeeping that every operation preserves: the window is the session's
      last chunk, which ends at `offset`; before any session exists nothing has
      been delivered. */
  predicate Valid(r: Reader, resource: seq<byte>) {
    && r.cursor <= |r.window|
    && (r.impl.None? ==> r.window == [] && r.cursor == 0)
    && (r.impl.Some? ==>
          && r.impl.value.resource == resource
          && HttpSession.Valid(r.impl.value)
          && HttpSession.Position(r.impl.value) == r.offset
          && r.impl.value.buffer == r.window)
  }

  /** `available()`: unread bytes in the window. */
  function Available(r: Reader): nat
    requires r.cursor <= |r.window|
  {
    |r.window| - r.cursor
  }

  /** `getPosition()`: the offset minus what the consumer has not yet read. */
  function GetPosition(r: Reader): (pos: int)
    requires r.cursor <= |r.window|
    ensures pos <= r.offset && pos + Available(r) == r.offset
    ensures pos == r.offset <==> r.cursor == |r.window|
  {
    r.offset - Available(r)
  }

  /** The consumer reading `k` bytes of the window. */
  function Consume(r: Reader, k: nat): Reader
    requires r.cursor + k <= |r.window|
  {
    r.(cursor := r.cursor + k)
  }

  /** `getPosition()` is the resource index of the next byte the consumer
      reads: the unread part of the window is the resource from there up to
      `offset`. */
  lemma PositionIsNextUnreadByte(r: Reader, resource: seq<byte>)
    requires Valid(r, resource)
    ensures 0 <= GetPosition(r) <= r.offset
    ensures GetPosition(r) + Available(r) == r.offset
    ensures HttpSession.Extends(resource, GetPosition(r), r.window[r.cursor..])
  {
  }

  /** `seek(offset_, whence)`: allowed only while no session exists, only
      with `SEEK_SET`, and only to a non-negative offset, checked in that
      order. On success the new offset is returned. */
  function Seek(r: Reader, target: int, whence: int): (res: Result<(Reader, int)>)
    ensures res.Ok? <==> r.impl.None? && whence == SEEK_SET && target >= 0
    ensures res.Ok? ==> res.value.1 == target && res.value.0 == r.(offset := target)
    ensures res.Ok? ==> forall resource :: Valid(r, resource) ==> Valid(res.value.0, resource)
    ensures r.impl.Some? ==> res == Err(CannotSeekThroughFile)
    ensures r.impl.None? && whence != SEEK_SET ==> res == Err(CannotSeekThroughFile)
    ensures r.impl.None? && whence == SEEK_SET && target < 0 ==> res == Err(SeekPositionOutOfBound)
  {
    if r.impl.Some? then Err(CannotSeekThroughFile)
    else if whence != SEEK_SET then Err(CannotSeekThroughFile)
    else if target < 0 then Err(SeekPositionOutOfBound)
    else Ok((r.(offset := target), target))
  }

  /** `initialize()`: the session opened for the current offset. Its range
      starts at exactly that offset, and its buffer size is the configured
      one. */
  function Initialize(r: Reader, p: Params, resource: seq<byte>): (s: HttpSession.Session)
    ensures HttpSession.Valid(s) && s.resource == resource
    ensures s.start == r.offset && HttpSession.Position(s) == r.offset
    ensures s.buffer == [] && s.capacity == p.bufferSize
    ensures s.request.url == p.url
    ensures s.request.timeouts == Request.BuildTimeouts(p.settings, p.keepAliveConfig)
    ensures Request.LookupHeader(s.request.headers, Request.RANGE_HEADER) == Some(Request.RangeHeaderValue(r.offset))
  {
    var req := Request.BuildRequest(p.url, r.offset, p.settings, p.keepAliveConfig,
                                    p.bufferSize, r.mode == External);
    HttpSession.Open(resource, req)
  }

  /** What one call of `nextImpl()` reports: a chunk (`Fetched(true)`), end
      of data (`Fetched(false)`), or the exception that escaped. */
  datatype Outcome = Fetched(more: bool) | Failed(code: ErrorCode)

  /** The state after one call, its outcome, and the number of session
      creation attempts the call made. */
  datatype Step = Step(reader: Reader, outcome: Outcome, tries: nat)

  /** The caller's side of the buffer handoff: in sequential mode an existing
      session may only be asked for more once the window is fully consumed,
      so that after the cursor is passed on the session has no pending data;
      in external mode the caller's buffer must be non-empty. */
  function HandoffReady(r: Reader, externalSize: nat): (ready: bool)
    requires r.cursor <= |r.window|
    ensures r.impl.None? ==> ready
    ensures r.impl.Some? && r.mode == Sequential && HttpSession.Valid(r.impl.value) && r.impl.value.buffer == r.window ==>
              (ready <==> !HttpSession.HasPendingData(HttpSession.SetCursor(r.impl.value, r.cursor)))
    ensures r.impl.Some? && r.mode == External ==> (ready <==> externalSize > 0)
  {
    r.impl.Some? ==>
      match r.mode
      case Sequential => Available(r) == 0
      case External => externalSize > 0
  }

  /** The size of buffer the session fills on this call. */
  function FetchCapacity(r: Reader, p: Params, externalSize: nat): nat {
    if r.impl.None? then p.bufferSize
    else if r.mode == External then externalSize
    else r.impl.value.capacity
  }

  /** The session prepared for this cycle: the existing one re-targeted, or a
      new one from the retry loop. */
  function PrepareSession(r: Reader, p: Params, resource: seq<byte>, attempts: nat -> Retry.Attempt, externalSize: nat)
    : (init: Retry.InitResult<HttpSession.Session>)
    requires Valid(r, resource)
    ensures init.error.None? ==> init.impl.Some?
    ensures init.impl.Some? ==> && HttpSession.Valid(init.impl.value)
                                && init.impl.value.resource == resource
                                && HttpSession.Position(init.impl.value) == r.offset
                                && init.impl.value.buffer == r.window
                                && SessionFor(r, p, resource, externalSize, init.impl.value)
    ensures r.impl.Some? ==> init.error.None? && init.tries == 0
    ensures r.impl.Some? && r.mode == Sequential ==> init.impl == Some(HttpSession.SetCursor(r.impl.value, r.cursor))
    ensures r.impl.Some? && r.mode == External ==> init.impl == Some(HttpSession.SetBuffer(r.impl.value, externalSize))
    ensures r.impl.None? ==> init == Retry.InitWithRetry(attempts, p.httpMaxTries, Initialize(r, p, resource))
  {
    match r.impl
    case Some(s) =>
      var s' := if r.mode == External then HttpSession.SetBuffer(s, externalSize)
                else HttpSession.SetCursor(s, r.cursor);
      Retry.InitResult(Some(s'), None, 0)
    case None =>
      Retry.InitWithRetry(attempts, p.httpMaxTries, Initialize(r, p, resource))
  }

  /** `s` is the session this call works with: the reader's own session, or
      the one `initialize()` opens for the current offset, filling the buffer
      of this call. */
  predicate SessionFor(r: Reader, p: Params, resource: seq<byte>, externalSize: nat, s: HttpSession.Session) {
    && s.capacity == FetchCapacity(r, p, externalSize)
    && (r.impl.Some? ==> s.request == r.impl.value.request && s.start == r.impl.value.start)
    && (r.impl.None? ==> s.request == Initialize(r, p, resource).request && s.start == r.offset)
  }

  /** `r'` shows the next chunk after `r`: the buffer filled as far as the
      resource allows, taken from the old offset on, with the offset moved
      past it and nothing of it read yet. */
  predicate Delivered(r: Reader, resource: seq<byte>, capacity: nat, r': Reader) {
    && r'.cursor == 0
    && |r'.window| == HttpSession.Min(capacity, |resource| - r.offset)
    && r'.offset == r.offset + |r'.window|
    && r.offset <= r'.offset <= |resource|
    && r'.window == resource[r.offset..r'.offset]
  }

  /** Offset and window are as they were. */
  predicate Unmoved(r: Reader, r': Reader) {
    r'.offset == r.offset && r'.window == r.window && r'.cursor == r.cursor
  }

  /** `nextImpl()`. Without a session it creates one through the retry loop;
      with one it re-targets it (the caller's buffer in external mode, the
      consumer's cursor in sequential mode). It then asks the session for the
      next chunk and, on success, makes that chunk the window and advances
      the offset by its size. */
  function NextImpl(r: Reader, p: Params, resource: seq<byte>, attempts: nat -> Retry.Attempt, externalSize: nat): (st: Step)
    requires Valid(r, resource)
    requires HandoffReady(r, externalSize)
    ensures Valid(st.reader, resource) && st.reader.mode == r.mode
    ensures r.impl.Some? ==> st.reader.impl.Some?
    ensures st.reader.impl.Some? ==> SessionFor(r, p, resource, externalSize, st.reader.impl.value)
    ensures st.tries == if r.impl.Some? then 0 else Retry.AttemptsRun(attempts, p.httpMaxTries)
    ensures st.outcome.Failed? <==> r.impl.None? && !Retry.LastRun(attempts, p.httpMaxTries).Succeeds?
    ensures st.outcome.Failed? ==>
              && st.outcome.code == Retry.Raised(Retry.LastRun(attempts, p.httpMaxTries))
              && Unmoved(r, st.reader)
              && (st.reader.impl.Some? <==> Retry.SomeSuccess(attempts, 0, Retry.AttemptsRun(attempts, p.httpMaxTries)))
    ensures st.outcome.Fetched? ==> st.reader.impl.Some?
    ensures st.outcome.Fetched? ==>
              (st.outcome.more <==> r.offset < |resource| && FetchCapacity(r, p, externalSize) > 0)
    ensures st.outcome == Fetched(true) ==> Delivered(r, resource, FetchCapacity(r, p, externalSize), st.reader)
    ensures st.outcome == Fetched(false) ==> Unmoved(r, st.reader)
  {
    var init := PrepareSession(r, p, resource, attempts, externalSize);
    if init.error.Some? then
      Step(r.(impl := init.impl), Failed(init.error.value), init.tries)
    else
      var (more, s) := HttpSession.Next(init.impl.value);
      if more then
        Step(r.(impl := Some(s), window := s.buffer, cursor := s.cursor, offset := r.offset + |s.buffer|),
             Fetched(true), init.tries)
      else
        Step(r.(impl := Some(s)), Fetched(false), init.tries)
  }
}

=== FILE: request.dfy ===
/** The request the reader hands to the HTTP transport when it opens a
    session: the open-ended byte range, the timeout bundle with its floors,
    and the keep-alive default.
 */
module Request {
  import opened Errors
  import Decimal

  const MICROS_PER_SECOND: nat := 1_000_000

  /** Floor applied to the HTTP connection and receive timeouts, in seconds. */
  const MIN_HTTP_TIMEOUT_SECONDS: nat := 20

  /** Value of `keep_alive_timeout` when the configuration does not set it. */
  const DEFAULT_KEEP_ALIVE_SECONDS: nat := 20

  /** A duration with microsecond resolution, like `Poco::Timespan`. */
  datatype Timespan = Timespan(micros: nat)

  /** `Poco::Timespan(seconds, 0)`. */
  function FromSeconds(seconds: nat): Timespan {
    Timespan(seconds * MICROS_PER_SECOND)
  }

  /** `totalSeconds()`: whole seconds, the sub-second part truncated. */
  function TotalSeconds(t: Timespan): nat {
    t.micros / MICROS_PER_SECOND
  }

  predicate IsWholeSeconds(t: Timespan) {
    t.micros % MICROS_PER_SECOND == 0
  }

  /** `std::max` on two timespans. */
  function MaxSpan(a: Timespan, b: Timespan): Timespan {
    if a.micros < b.micros then b else a
  }

  /** A configured HTTP timeout cut to whole seconds and raised to the
      20-second floor. */
  function FloorHttpTimeout(t: Timespan): (r: Timespan)
    ensures IsWholeSeconds(r)
    ensures TotalSeconds(r) >= MIN_HTTP_TIMEOUT_SECONDS
    ensures TotalSeconds(r) >= TotalSeconds(t)
    ensures TotalSeconds(r) == MIN_HTTP_TIMEOUT_SECONDS || TotalSeconds(r) == TotalSeconds(t)
  {
    MaxSpan(FromSeconds(TotalSeconds(t)), FromSeconds(MIN_HTTP_TIMEOUT_SECONDS))
  }

  /** Applying the floor twice changes nothing. */
  lemma FloorHttpTimeoutIdempotent(t: Timespan)
    ensures FloorHttpTimeout(FloorHttpTimeout(t)) == FloorHttpTimeout(t)
  {
  }

  /** A whole-second timeout at or above the floor is used as configured;
      otherwise the floor or the truncation changes it. */
  lemma FloorHttpTimeoutKeeps(t: Timespan)
    ensures FloorHttpTimeout(t) == t <==> IsWholeSeconds(t) && TotalSeconds(t) >= MIN_HTTP_TIMEOUT_SECONDS
  {
  }

  /** The subset of the query settings the reader consults. */
  datatype Settings = Settings(
    httpConnectionTimeout: Timespan,
    httpSendTimeout: Timespan,
    httpReceiveTimeout: Timespan,
    tcpKeepAliveTimeout: Timespan)

  /** `ConnectionTimeouts` as passed to the transport. */
  datatype ConnectionTimeouts = ConnectionTimeouts(
    connection: Timespan,
    send: Timespan,
    receive: Timespan,
    tcpKeepAlive: Timespan,
    httpKeepAlive: Timespan)

  /** The timeout bundle built from the settings and the optional
      `keep_alive_timeout` configuration value (whole seconds). */
  function BuildTimeouts(settings: Settings, keepAliveConfig: Option<nat>): (t: ConnectionTimeouts)
    ensures t.connection == FloorHttpTimeout(settings.httpConnectionTimeout)
    ensures t.receive == FloorHttpTimeout(settings.httpReceiveTimeout)
    ensures t.send == settings.httpSendTimeout
    ensures t.tcpKeepAlive == settings.tcpKeepAliveTimeout
    ensures IsWholeSeconds(t.httpKeepAlive)
    ensures keepAliveConfig.None? ==> TotalSeconds(t.httpKeepAlive) == DEFAULT_KEEP_ALIVE_SECONDS
    ensures keepAliveConfig.Some? ==> TotalSeconds(t.httpKeepAlive) == keepAliveConfig.value
  {
    ConnectionTimeouts(
      FloorHttpTimeout(settings.httpConnectionTimeout),
      settings.httpSendTimeout,
      FloorHttpTimeout(settings.httpReceiveTimeout),
      settings.tcpKeepAliveTimeout,
      FromSeconds(keepAliveConfig.GetOr(DEFAULT_KEEP_ALIVE_SECONDS)))
  }

  const RANGE_HEADER: string := "Range"
  const BYTES_UNIT_PREFIX: string := "bytes="

  /** The value of an open-ended `Range` header: a byte-range-spec whose
      last-byte-pos is omitted (section 2.1 of RFC 7233), so the range runs
      from `first` to the end of the representation. */
  function RangeHeaderValue(first: nat): (v: string)
    ensures |v| >= |BYTES_UNIT_PREFIX| + 2
    ensures v[..|BYTES_UNIT_PREFIX|] == BYTES_UNIT_PREFIX && v[|v| - 1] == '-'
    ensures Decimal.IsCanonical(v[|BYTES_UNIT_PREFIX|..|v| - 1])
  {
    BYTES_UNIT_PREFIX + Decimal.Format(first) + "-"
  }

  /** How a server reads an open-ended byte range: `bytes=` 1*DIGIT `-`.
      Anything else is not such a range. */
  function ParseOpenRange(v: string): Option<nat> {
    if |v| >= |BYTES_UNIT_PREFIX| + 2
       && v[..|BYTES_UNIT_PREFIX|] == BYTES_UNIT_PREFIX
       && v[|v| - 1] == '-'
       && Decimal.IsDigits(v[|BYTES_UNIT_PREFIX|..|v| - 1])
    then Some(Decimal.Parse(v[|BYTES_UNIT_PREFIX|..|v| - 1]))
    else None
  }

  /** The header the reader writes is read back as the range starting at
      the offset it was built from. */
  lemma RangeHeaderRoundTrip(first: nat)
    ensures ParseOpenRange(RangeHeaderValue(first)) == Some(first)
  {
    var v := RangeHeaderValue(first);
    var digits := Decimal.Format(first);
    assert v[..|BYTES_UNIT_PREFIX|] == BYTES_UNIT_PREFIX;
    assert v[|BYTES_UNIT_PREFIX|..|v| - 1] == digits;
    Decimal.ParseFormat(first);
  }

  /** Conversely, every open range without redundant leading zeros is the
      header the reader writes for its start offset. */
  lemma RangeHeaderCanonical(v: string, first: nat)
    requires ParseOpenRange(v) == Some(first)
    requires Decimal.IsCanonical(v[|BYTES_UNIT_PREFIX|..|v| - 1])
    ensures RangeHeaderValue(first) == v
  {
    var digits := v[|BYTES_UNIT_PREFIX|..|v| - 1];
    Decimal.FormatParse(digits);
    assert v == v[..|BYTES_UNIT_PREFIX|] + digits + [v[|v| - 1]];
  }

  /** What the reader hands to the transport constructor. `maxRedirects` is
      the integer argument passed right after the timeouts, always 0: the
      transport is told to follow no redirects. The position is carried by
      the `Range` header alone. */
  datatype Request = Request(
    url: string,
    httpMethod: string,
    headers: seq<(string, string)>,
    timeouts: ConnectionTimeouts,
    maxRedirects: nat,
    bufferSize: nat,
    useExternalBuffer: bool)

  /** The value of the first header called `name`, if any. */
  function LookupHeader(headers: seq<(string, string)>, name: string): Option<string> {
    if |headers| == 0 then None
    else if headers[0].0 == name then Some(headers[0].1)
    else LookupHeader(headers[1..], name)
  }

  /** The resource offset at which a server starts answering the request:
      the start of its open range, or 0 when there is no usable range (a
      server may ignore a `Range` header it cannot interpret). */
  function RequestedStart(req: Request): nat {
    match LookupHeader(req.headers, RANGE_HEADER)
    case Some(v) => ParseOpenRange(v).GetOr(0)
    case None => 0
  }

  /** The request `initialize()` builds for the current logical offset. */
  function BuildRequest(
    url: string, offset: nat, settings: Settings, keepAliveConfig: Option<nat>,
    bufferSize: nat, useExternalBuffer: bool): (req: Request)
    ensures RequestedStart(req) == offset
    ensures LookupHeader(req.headers, RANGE_HEADER) == Some(RangeHeaderValue(offset))
    ensures req.url == url && req.headers == [(RANGE_HEADER, RangeHeaderValue(offset))]
    ensures req.httpMethod == "GET" && req.maxRedirects == 0
    ensures req.timeouts == BuildTimeouts(settings, keepAliveConfig)
    ensures req.bufferSize == bufferSize && req.useExternalBuffer == useExternalBuffer
  {
    RangeHeaderRoundTrip(offset);
    Request(url, "GET", [(RANGE_HEADER, RangeHeaderValue(offset))],
            BuildTimeouts(settings, keepAliveConfig), 0, bufferSize, useExternalBuffer)
  }
}

=== FILE: retry.dfy ===
/** Session creation with retry, exactly as the reader's loop runs it: a
    fixed number of attempts with no exit on success. Any `Poco::Exception`
    is swallowed except on the final attempt, where it
    escapes even when an earlier attempt has already installed a session.
    Any other exception is not caught and ends the loop at once.
 */
module Retry {
  import opened Errors

  /** Lower bound on the number of attempts (`HTTP_MAX_TRIES`). */
  const HTTP_MAX_TRIES: nat := 10

  /** The outcome of one call of `initialize()`: the session was built, the
      attempt raised a `Poco::Exception` of any kind (`Fails`), or some other exception
      was raised (`Escapes`). */
  datatype Attempt = Succeeds | Fails(reason: string) | Escapes(reason: string)

  /** The error an unsuccessful attempt raises. */
  function Raised(a: Attempt): ErrorCode
    requires !a.Succeeds?
  {
    match a
    case Fails(reason) => PocoError(reason)
    case Escapes(reason) => UnexpectedError(reason)
  }

  /** What the loop leaves behind: the session pointer, the exception that
      escaped (if any), and how many attempts were made. */
  datatype InitResult<S> = InitResult(impl: Option<S>, error: Option<ErrorCode>, tries: nat)

  /** `max(http_max_tries, HTTP_MAX_TRIES)`. */
  function NumTries(httpMaxTries: nat): (n: nat)
    ensures n >= HTTP_MAX_TRIES && n >= httpMaxTries
    ensures n == HTTP_MAX_TRIES || n == httpMaxTries
  {
    if httpMaxTries < HTTP_MAX_TRIES then HTTP_MAX_TRIES else httpMaxTries
  }

  /** Some attempt in `[from, to)` builds a session. */
  predicate SomeSuccess(attempts: nat -> Attempt, from: nat, to: nat) {
    exists j :: from <= j < to && attempts(j).Succeeds?
  }

  /** The first attempt in `[lo, hi)` that raises an exception the loop
      does not catch, or `hi` when there is none. */
  function FirstEscape(attempts: nat -> Attempt, lo: nat, hi: nat): (k: nat)
    requires lo <= hi
    decreases hi - lo
    ensures lo <= k <= hi
    ensures k < hi ==> attempts(k).Escapes?
    ensures forall j :: lo <= j < k ==> !attempts(j).Escapes?
  {
    if lo == hi then hi
    else if attempts(lo).Escapes? then lo
    else FirstEscape(attempts, lo + 1, hi)
  }

  /** The loop from iteration `i` of `n`, with `impl` the pointer so far and
      `built` the session every successful attempt installs. Iteration `k`,
      the first uncaught exception, is the last one run. */
  function RetryFrom<S>(attempts: nat -> Attempt, n: nat, i: nat, impl: Option<S>, built: S): (r: InitResult<S>)
    requires i <= n
    decreases n - i
    ensures var k := FirstEscape(attempts, i, n);
            && r.tries == (if k < n then k + 1 else n) - i
            && (r.error.Some? <==> k < n || (i < n && attempts(n - 1).Fails?))
            && (r.error.Some? ==> r.error.value == Raised(if k < n then attempts(k) else attempts(n - 1)))
            && r.impl == if SomeSuccess(attempts, i, k) then Some(built) else impl
  {
    if i == n then
      InitResult(impl, None, 0)
    else
      match attempts(i)
      case Succeeds =>
        var rest := RetryFrom(attempts, n, i + 1, Some(built), built);
        rest.(tries := rest.tries + 1)
      case Escapes(reason) =>
        InitResult(impl, Some(UnexpectedError(reason)), 1)
      case Fails(reason) =>
        if i == n - 1 then InitResult(impl, Some(PocoError(reason)), 1)
        else
          var rest := RetryFrom(attempts, n, i + 1, impl, built);
          rest.(tries := rest.tries + 1)
  }

  /** The attempts the loop runs for `httpMaxTries`: all of them, up to and
      including the first uncaught exception. */
  function AttemptsRun(attempts: nat -> Attempt, httpMaxTries: nat): (m: nat)
    ensures 0 < m <= NumTries(httpMaxTries)
    ensures forall j :: 0 <= j < m - 1 ==> !attempts(j).Escapes?
    ensures m < NumTries(httpMaxTries) ==> attempts(m - 1).Escapes?
  {
    var k := FirstEscape(attempts, 0, NumTries(httpMaxTries));
    if k < NumTries(httpMaxTries) then k + 1 else NumTries(httpMaxTries)
  }

  /** The outcome of the last attempt the loop runs; it decides whether
      session creation reports an error. */
  function LastRun(attempts: nat -> Attempt, httpMaxTries: nat): Attempt {
    attempts(AttemptsRun(attempts, httpMaxTries) - 1)
  }

  /** Session creation as the reader performs it when it has no session. */
  function InitWithRetry<S>(attempts: nat -> Attempt, httpMaxTries: nat, built: S): (r: InitResult<S>)
    ensures var m := AttemptsRun(attempts, httpMaxTries);
            && r.tries == m
            && (r.error.Some? <==> !attempts(m - 1).Succeeds?)
            && (r.error.Some? ==> r.error.value == Raised(attempts(m - 1)))
            && (r.impl.Some? <==> SomeSuccess(attempts, 0, m))
            && (r.impl.Some? ==> r.impl.value == built)
            && (r.error.None? ==> r.impl == Some(built))
  {
    var n := NumTries(httpMaxTries);
    var k := FirstEscape(attempts, 0, n);
    SomeSuccessExtend(attempts, 0, (if k < n then k + 1 else n) - 1);
    RetryFrom(attempts, n, 0, None, built)
  }

  /** Widening the range by one attempt adds exactly that attempt. */
  lemma SomeSuccessExtend(attempts: nat -> Attempt, from: nat, to: nat)
    requires from <= to
    ensures SomeSuccess(attempts, from, to + 1) <==> SomeSuccess(attempts, from, to) || attempts(to).Succeeds?
  {
  }

  /** The same loop written as the counted `for` loop it is, rethrowing a
      `Poco::Exception` on the last iteration and any other exception at
      once; it computes exactly `InitWithRetry`. */
  method RunRetryLoop<S>(attempts: nat -> Attempt, httpMaxTries: nat, built: S) returns (r: InitResult<S>)
    ensures r == InitWithRetry(attempts, httpMaxTries, built)
  {
    var numTries := NumTries(httpMaxTries);
    var impl: Option<S> := None;
    var tries := 0;
    for i := 0 to numTries
      invariant tries == i
      invariant impl == if SomeSuccess(attempts, 0, i) then Some(built) else None
      invariant forall j :: 0 <= j < i ==> !attempts(j).Escapes?
      invariant forall j :: 0 <= j < i && j == numTries - 1 ==> attempts(j).Succeeds?
    {
      tries := tries + 1;
      match attempts(i)
      case Succeeds =>
        impl := Some(built);
      case Escapes(reason) =>
        assert AttemptsRun(attempts, httpMaxTries) == i + 1;
        return InitResult(impl, Some(UnexpectedError(reason)), tries);
      case Fails(reason) =>
        if i == numTries - 1 {
          return InitResult(impl, Some(PocoError(reason)), tries);
        }
    }
    r := InitResult(impl, None, tries);
  }

  /** The loop has no early exit: a session built on the first attempt is
      still followed by the remaining attempts, and a failure on the last one
      is reported although a session exists. */
  lemma LateFailureAfterSuccess<S>(attempts: nat -> Attempt, httpMaxTries: nat, built: S)
    requires attempts(0).Succeeds?
    requires attempts(NumTries(httpMaxTries) - 1).Fails?
    ensures var r := InitWithRetry(attempts, httpMaxTries, built);
            && r.error.Some? && r.impl == Some(built)
            && (r.tries == NumTries(httpMaxTries) <==> forall j :: 0 <= j < NumTries(httpMaxTries) ==> !attempts(j).Escapes?)
  {
  }

  /** `Poco::Exception`s before the last attempt never reach the caller:
      when no attempt raises an uncaught exception and the last one builds a
      session, creation succeeds after all attempts. */
  lemma EarlierFailuresSwallowed<S>(attempts: nat -> Attempt, httpMaxTries: nat, built: S)
    requires forall j :: 0 <= j < NumTries(httpMaxTries) ==> !attempts(j).Escapes?
    requires attempts(NumTries(httpMaxTries) - 1).Succeeds?
    ensures InitWithRetry(attempts, httpMaxTries, built) == InitResult(Some(built), None, NumTries(httpMaxTries))
  {
  }

  /** An exception other than `Poco::Exception` is not retried: it escapes
      from the attempt that raised it, no later attempt is made, and a
      session built before it stays installed. */
  lemma UncaughtExceptionStopsLoop<S>(attempts: nat -> Attempt, httpMaxTries: nat, built: S, j: nat)
    requires j < NumTries(httpMaxTries) && attempts(j).Escapes?
    requires forall i :: 0 <= i < j ==> !attempts(i).Escapes?
    ensures var r := InitWithRetry(attempts, httpMaxTries, built);
            && r.tries == j + 1
            && r.error == Some(UnexpectedError(attempts(j).reason))
            && (r.impl.Some? <==> SomeSuccess(attempts, 0, j))
  {
  }
}

=== FILE: session.dfy ===
/** An abstract stand-in for the HTTP range-reading session the reader owns.

    The remote resource is a byte sequence. A session answers one open-ended
    range request: it delivers the resource from its requested start onward,
    one chunk per `Next`, each chunk as large as the session's buffer allows.
 */
module HttpSession {
  import Request

  newtype byte = b: int | 0 <= b < 256

  /** `bytes` is the stretch of `resource` that starts at `from` (trivially
      so when it is empty). */
  predicate Extends(resource: seq<byte>, from: int, bytes: seq<byte>) {
    |bytes| == 0 || (0 <= from && from + |bytes| <= |resource| && bytes == resource[from..from + |bytes|])
  }

  /** Two adjacent stretches of the resource form one stretch. */
  lemma ExtendsConcat(resource: seq<byte>, from: int, mid: int, a: seq<byte>, b: seq<byte>)
    requires Extends(resource, from, a)
    requires mid == from + |a| && Extends(resource, mid, b)
    ensures Extends(resource, from, a + b)
  {
  }

  /** The session state: the resource, the start of the requested range, how
      many bytes it has delivered since, the size of the buffer it fills,
      its last delivered buffer and the read cursor inside that buffer. */
  datatype Session = Session(
    request: Request.Request,
    resource: seq<byte>,
    start: nat,
    fetched: nat,
    capacity: nat,
    buffer: seq<byte>,
    cursor: nat)

  /** The resource index of the next byte the session will deliver. */
  function Position(s: Session): nat {
    s.start + s.fetched
  }

  /** The buffer is the last stretch delivered, ending at `Position`. */
  predicate Valid(s: Session) {
    && s.cursor <= |s.buffer| <= s.fetched
    && Extends(s.resource, Position(s) - |s.buffer|, s.buffer)
  }

  /** A fresh session for `req` against `resource`: nothing delivered yet,
      starting where the request's range starts, filling a buffer of the
      requested size. The external-buffer flag is not consulted: until it
      is given a buffer, the session is assumed to fill one of its own. */
  function Open(resource: seq<byte>, req: Request.Request): (s: Session)
    ensures Valid(s)
    ensures s.start == Request.RequestedStart(req) && s.fetched == 0
    ensures s.capacity == req.bufferSize && s.buffer == []
  {
    Session(req, resource, Request.RequestedStart(req), 0, req.bufferSize, [], 0)
  }

  /** `impl->position() = pos`: move the session's read cursor. */
  function SetCursor(s: Session, cursor: nat): (r: Session)
    requires Valid(s) && cursor <= |s.buffer|
    ensures Valid(r) && r.cursor == cursor
  {
    s.(cursor := cursor)
  }

  /** `impl->set(ptr, size)`: make the session fill a caller-owned buffer of
      `size` bytes from now on. */
  function SetBuffer(s: Session, size: nat): (r: Session)
    requires Valid(s)
    ensures Valid(r) && r.capacity == size
  {
    s.(capacity := size)
  }

  /** Unread bytes remain in the session's buffer. */
  predicate HasPendingData(s: Session)
    requires Valid(s)
  {
    s.cursor < |s.buffer|
  }

  function Min(a: int, b: int): int {
    if a < b then a else b
  }

  /** `impl->next()`: deliver the next chunk, or report that the range is
      exhausted. */
  function Next(s: Session): (r: (bool, Session))
    requires Valid(s)
    ensures Valid(r.1)
    ensures r.0 <==> Position(s) < |s.resource| && s.capacity > 0
    ensures r.0 ==> && r.1 == s.(fetched := r.1.fetched, buffer := r.1.buffer, cursor := 0)
                    && |r.1.buffer| == Min(s.capacity, |s.resource| - Position(s))
                    && Position(r.1) == Position(s) + |r.1.buffer|
                    && r.1.buffer == s.resource[Position(s)..Position(r.1)]
    ensures !r.0 ==> r.1 == s
  {
    var pos := Position(s);
    if pos < |s.resource| && s.capacity > 0 then
      var end := Min(pos + s.capacity, |s.resource|);
      (true, s.(fetched := s.fetched + (end - pos), buffer := s.resource[pos..end], cursor := 0))
    else
      (false, s)
  }
}
